=== FILE: README.md ===
# Pong trajectory generator: physics and rasteriser

A model of the state-transition engine of `datasets/pong.py`. The script
produces synthetic Pong trajectories as training data. It has two parts:

- a small physics model. One timestep moves the ball by its direction and
  speed plus Gaussian noise, folds it back into the box `[-1, 1]²` and
  reflects its direction when it crosses a wall. Both paddles then move
  half-way towards the ball, plus noise, and are clamped to `[-1, 1]`;
- a rasteriser that paints each state into a 32 × 32 RGB frame. The
  background comes first, then a plus-shaped ball, then a two-row band for
  each paddle. Every paint is a NumPy slice assignment, clipped at the edge
  of the frame.

The modules follow that structure:

| module | file | what it holds |
|---|---|---|
| `Angles` | `angles.dfy` | `mod_angle`, `flip_angle_x` and `flip_angle_y` over exact reals. Also the congruence "differs by a whole number of turns". |
| `State` | `state.dfy` | The `PongState` record and its constructor defaults. The five random terms a step consumes (`Draws`) and their scaling by the noise deviations. |
| `Stepper` | `stepper.dfy` | `mod_pos`, the clamp, `update_ball_pos`, `update_paddle_pos` and `simulate_timestep` as pure functions. Also the range invariant a step keeps. |
| `Raster` | `raster.dfy` | `get_abs_pos`, clipped slice assignment, `reset_frame`, `draw_ball`, `draw_paddles` and `draw_frame`. |
| `Trajectory` | `trajectory.dfy` | The frame-collection loop of `save_trajectory` without the file write, and its failure modes. |

Each operation is paired with an independent description it is proved
against:

| operation | proved against |
|---|---|
| `ModAngle` | `IsWrapOf`, the unique congruent angle in the right half-open turn |
| the flips | the mirror `pi - a` and the negation `-a`, up to whole turns |
| the ball update | the reference bounce `Bounced` for the direction, and the fold `ModPos` and its mirror values for the position |
| the paddle update | halving of the gap |
| `GetAbsPos` | the floor of its affine map |
| `DrawFrame` | the per-pixel description `ExpectedPixel` |
| the trajectory loop | `RenderRun`, the frames of the run `Run` |

## Model

| member | source | states |
|---|---|---|
| `Angles.PiRelations` | datasets/pong.py:27-39 | The derived constants are exactly half and double `Pi`, as the source writes `0.5*np.pi` and `2*np.pi`. |
| `Angles.RaiseAngle` | datasets/pong.py:26-27 | The first loop ends non-negative. A negative input ends strictly below 2π. A non-negative input is untouched. |
| `Angles.LowerAngle` | datasets/pong.py:28-29 | The second loop ends at most 2π. An input above 2π ends strictly positive. Anything at most 2π is untouched. |
| `Angles.RaiseAngleSame` | datasets/pong.py:26-27 | The first loop changes the angle only by whole turns. |
| `Angles.LowerAngleSame` | datasets/pong.py:28-29 | The second loop changes the angle only by whole turns. |
| `Angles.ModAngle` | datasets/pong.py:25-30 | The result lies in the closed range [0, 2π], with 2π included. It is the identity on [0, 2π]. Over exact reals, an input below 2π never wraps to 2π. |
| `Angles.ModAngleSame` | datasets/pong.py:25-30 | The result differs from the input by a whole number of turns. |
| `Angles.ModAngleIsWrap` | datasets/pong.py:25-30 | Exact characterisation, in both directions. `r == mod_angle(a)` iff `r` is congruent to `a` and lies in a fixed range: [0, 2π) for `a < 0`, `r == a` on [0, 2π], and (0, 2π] above 2π. |
| `Angles.ModAngleIdempotent` | datasets/pong.py:25-30 | Wrapping twice is wrapping once. |
| `Angles.ModAngleKeepsTwoPi` | datasets/pong.py:28-30 | 2π and 4π both wrap to 2π. 0 and 2π are the same direction, yet each is its own fixed point, so the closed range gives that direction two representatives. |
| `Angles.FlipX` | datasets/pong.py:32-34 | The x-reflection lies in [0, 2π], and strictly below 2π for every angle above -π. |
| `Angles.FlipXSame` | datasets/pong.py:32-34 | The x-reflection is `π - a` up to whole turns. |
| `Angles.FlipXTwiceSame` | datasets/pong.py:32-34 | Reflecting twice restores the angle up to whole turns, for every real angle. |
| `Angles.FlipXInvolution` | datasets/pong.py:32-34 | On [0, 2π) the x-reflection is an exact involution. |
| `Angles.FlipXAtTwoPi` | datasets/pong.py:32-34 | 0 ↦ π, 2π ↦ π and π ↦ 0, so the involution fails at 2π. Also -π ↦ 2π. |
| `Angles.FlipY` | datasets/pong.py:36-40 | Over exact reals, the composed y-reflection lies in the half-open range [0, 2π) for every input. |
| `Angles.FlipYSame` | datasets/pong.py:36-40 | The three-stage composition is the negation `-a` up to whole turns. |
| `Angles.FlipYIsNegation` | datasets/pong.py:36-40 | For every angle above -2π, the composition equals `mod_angle(-a)` exactly. |
| `Angles.FlipYNegationBreaks` | datasets/pong.py:36-40 | At -2π the two differ: the composition gives 0, but `mod_angle(2π)` is 2π. |
| `Angles.FlipYExamples` | datasets/pong.py:36-40 | π/2 ↦ 3π/2 and 0 ↦ 0. |
| `Angles.FlipYTwiceSame` | datasets/pong.py:36-40 | Reflecting twice restores the angle up to whole turns. |
| `Angles.FlipYInvolution` | datasets/pong.py:36-40 | On [0, 2π) the y-reflection is an exact involution. |
| `Angles.FlipYAfterFlipXSame` | datasets/pong.py:32-40 | A corner bounce handled x-first turns the direction by half a turn. |
| `Angles.FlipXAfterFlipYSame` | datasets/pong.py:32-40 | A corner bounce handled y-first turns the direction by half a turn. |
| `Angles.FlipsCommute` | datasets/pong.py:32-40 | The two reflections commute exactly, for every angle. |
| `State.ScaleDraws` | datasets/pong.py:86-101 | Each term is its deviation times its own draw, in the order of the source: ball x, ball y and ball angle with the ball deviation, then protagonist and antagonist paddle with the paddle deviation. A zero deviation silences its terms, and zero draws give zero terms. |
| `State.NewPongState` | datasets/pong.py:43-71 | The constructor stores every argument as given: positions, angle, scores, speed, both noise deviations and the four colours. It starts the step counter at 0 and does no validation. |
| `State.DefaultState` | datasets/pong.py:45-58 | The default arguments: ball and paddles at 0, angle π/7, scores 0, speed 0.2, ball noise 0.05, paddle noise 0.1, timestep 0, and blue ball, white background, green protagonist and red antagonist. |
| `Stepper.ModPos` | datasets/pong.py:18-23 | The fold is the identity on [-1, 1]. It maps (1, 3] to `2 - pos` < 1 and [-3, -1) to `-2 - pos` > -1. Its result is in [-1, 1] exactly when the input is in [-3, 5]. |
| `Stepper.ModPosExamples` | datasets/pong.py:18-23 | 6 ↦ 2 and -4 ↦ 2 stay out of range. 4 ↦ 0 is folded twice. |
| `Stepper.ModPosIdempotentInRange` | datasets/pong.py:18-23 | On [-3, 5] folding twice is folding once. |
| `Stepper.Clamp` | datasets/pong.py:99 | `max(-1, min(v, 1))` lies in [-1, 1]. It is the identity there and saturates at the bound that was crossed. |
| `Stepper.BallUpdate` | datasets/pong.py:83-94 | Only position and direction change, and the direction lies in [0, 2π]. An axis keeps its noisy value exactly when that value is in [-1, 1], in both directions. Otherwise it becomes `mod_pos` of that value: `2 - v` on (1, 3], `-2 - v` on [-3, -1) and `v - 4` on (3, 5]. A noisy value in [-3, 3] is brought back into [-1, 1]. Without a crossing the direction is the wrapped noisy one. |
| `Stepper.BallUpdateDirection` | datasets/pong.py:88-94 | The new direction equals the reference bounce of the noisy direction up to whole turns: `π - a` for an x-crossing, then negation for a y-crossing. After any bounce it is strictly below 2π. |
| `Stepper.BallUpdateOrderIrrelevant` | datasets/pong.py:89-94 | When both walls are crossed, the x-then-y order gives the same direction as y-then-x. |
| `Stepper.PaddleUpdate` | datasets/pong.py:96-102 | Only the two paddle positions change, and both end in [-1, 1]. |
| `Stepper.TrackHalvesGap` | datasets/pong.py:97-99 | Without noise, a paddle and ball both in range: the paddle's distance to the ball halves. |
| `Stepper.PaddleUpdateHalvesGap` | datasets/pong.py:96-102 | Without paddle noise, and with both paddles and the ball in range, each paddle's distance to the ball halves. |
| `Stepper.Step` | datasets/pong.py:104-107 | After a step the counter is one higher. Speed, noise deviations, scores and colours are unchanged. The direction lies in [0, 2π], and both paddles lie in [-1, 1]. A noisy coordinate in [-3, 3] ends in [-1, 1]. The ball's position and direction are exactly those `update_ball_pos` produces, so the fold values and the bounce of `Stepper.BallUpdate` and `Stepper.BallUpdateDirection` carry over. |
| `Stepper.StepTracksNewBall` | datasets/pong.py:104-107 | Each paddle becomes `clamp(p + 0.5*(y' - p) + noise)`, where `y'` is the ball's y after this step's fold. By `Stepper.Step`'s contract, `y'` is the ball update's y. |
| `Stepper.StepPreservesValid` | datasets/pong.py:83-107 | A step keeps every coordinate in [-1, 1] and the direction in [0, 2π], provided the ball's motion plus noise is at most 2 per axis. |
| `Stepper.BallCanEscape` | datasets/pong.py:86-90 | Counterexample to unconditional range preservation: from the default state, an x-draw of 140 leaves the folded ball outside [-1, 1]. |
| `Stepper.NoiseFreeStraightLine` | datasets/pong.py:84-94 | Without noise, a ball that stays inside moves by `(cos a, sin a) · speed` and keeps its direction, even 2π. |
| `Stepper.NoiseFreeBounceX` | datasets/pong.py:84-91 | Without noise, angle 0 hitting the right wall becomes π, and the position is mirrored in the wall at 1. |
| `Stepper.NoiseFreeBounceY` | datasets/pong.py:84-94 | Without noise, angle π/2 hitting the top wall becomes 3π/2, and the position is mirrored in the wall at 1. |
| `Raster.Trunc` | datasets/pong.py:14 | Python's `int()` truncates toward zero: it is the floor for non-negative inputs and the ceiling for negative ones. |
| `Raster.GetAbsPos` | datasets/pong.py:11-16 | With the asserted `-1 <= rel <= 1`, the index lies in [w, 32 - w]. When that range is empty (w > 16), the index is w. |
| `Raster.GetAbsPosIsFloor` | datasets/pong.py:11-16 | For margins 0 ≤ w ≤ 16 the index is the floor of the affine map, and the clamp never fires. |
| `Raster.GetAbsPosMonotone` | datasets/pong.py:11-16 | The index is monotone in the relative coordinate, for every margin. |
| `Raster.GetAbsPosExamples` | datasets/pong.py:11-16 | (-1,1)↦1, (0,1)↦16, (1,1)↦31, (-1,2)↦2, (0,2)↦16 and (1,2)↦30. |
| `Raster.StampsHangOffHighEdge` | datasets/pong.py:109-119 | At the high edge the ball's plus-shape and the paddle's band both reach index 32, one past the frame. |
| `Raster.SliceBound` | datasets/pong.py:112-119 | A slice bound is normalised Python-style into [0, n]. An in-range bound is kept, a bound past the end becomes `n` (as 33 does at the high edge), and a negative bound counts from the end, stopping at 0. |
| `Raster.ClippedSlice` | datasets/pong.py:112-119 | A slice that starts inside the frame selects exactly the in-frame indices of its nominal range. |
| `Raster.Paint` | datasets/pong.py:112-119 | Painting a rectangle changes exactly the pixels inside it. |
| `Raster.Assign` | datasets/pong.py:112-119 | `frame[rows, cols, :] = c` sets exactly the pixels whose row and column fall in the clipped slices. All other pixels are unchanged. |
| `Raster.AssignClipped` | datasets/pong.py:112-119 | An assignment with in-frame starts paints the in-frame part of its nominal rectangle and nothing else. |
| `Raster.ResetFrame` | datasets/pong.py:79-81 | Every pixel of the fresh 32 × 32 frame is the background colour. |
| `Raster.DrawBall` | datasets/pong.py:109-113 | The in-frame cells of the plus-shape around `(get_abs_pos(x,1), get_abs_pos(y,1))` take the ball colour. Every other pixel is unchanged. |
| `Raster.DrawPaddles` | datasets/pong.py:115-119 | Rows 0-1 at columns `pro-2..pro+2` take the protagonist colour. Then rows 30-31 at `ant-2..ant+2` take the antagonist colour. Every other pixel is unchanged. |
| `Raster.DrawFrame` | datasets/pong.py:121-124 | Every pixel of the rendered frame is the reference pixel. A paddle band comes first, since paddles are painted last. Then the ball's plus-shape, then the background. |
| `Raster.DrawFrameIgnoresDynamics` | datasets/pong.py:121-124 | The frame depends only on the four positions and the four colours. Direction, speed, noise, scores and timestep do not show. |
| `Raster.DefaultFrame` | datasets/pong.py:121-124 | The default state is drawable. It renders a blue plus at (16, 16), a green band in rows 0-1 and a red band in rows 30-31, on white. |
| `Trajectory.RunKeepsSettings` | datasets/pong.py:132-133 | After `t` steps the counter has grown by `t` and the settings are unchanged. After at least one step the direction is in [0, 2π] and both paddles are in [-1, 1]. |
| `Trajectory.RunStaysValid` | datasets/pong.py:132-133 | From a valid state whose steps each move the ball by at most 2 per axis, every state of the run is valid. |
| `Trajectory.DrawableUpToAll` | datasets/pong.py:130-135 | The recursive "first `n` states drawable" is the bounded quantifier, in both directions. |
| `Trajectory.SmallMovesDraw` | datasets/pong.py:130-135 | Under the small-move bound every state the loop renders satisfies the assertions of `get_abs_pos`. |
| `Trajectory.RenderRun` | datasets/pong.py:130-135 | The reference trajectory holds one frame per state. |
| `Trajectory.RenderRunFrame` | datasets/pong.py:130-135 | Frame `k` of the reference trajectory is the frame of the state after `k` steps. |
| `Trajectory.CollectFrames` | datasets/pong.py:130-135 | The loop either returns the reference frames and the state `timesteps - 1` steps on, or stops at the first undrawable state, whose index it reports. |
| `Trajectory.SaveTrajectory` | datasets/pong.py:126-135 | A negative length fails in `np.empty`. An undrawable initial state fails in the first `draw_frame`. A length of 0 fails when storing frame 0. The negative-length error and the length-0 error each occur in exactly their own case. Otherwise this is the loop above: it succeeds exactly when every rendered state is drawable, and any other failure is a coordinate error naming the first state that is not drawable. |
| `Trajectory.SavePongTrajectory` | datasets/pong.py:126-135 | With `simulate_timestep` as the step, a valid start and steps of at most 2 per axis, every state of the run is drawable and the trajectory is saved in full. It has one frame per timestep, the frames are the rendered run of `simulate_timestep` (frame `k` draws the state after `k` steps), and the final state is the one after `timesteps - 1` steps. |

## Left out

- Randomness. Each `np.random.randn()` call becomes a caller-supplied value: `Draws` per step and `noise: nat -> Draws` per run. Their distribution is not modelled.
- `np.cos` and `np.sin`. They are uninterpreted function parameters. No property of them is assumed beyond what a lemma states as a precondition.
- Floating point. Positions and angles are exact reals, so no float rounding, NaN or infinity is modelled. `Pi` is the shortest decimal that rounds to the 64-bit `np.pi`, not its exact binary value. Some exact-real facts, such as `FlipYIsNegation` and `FlipsCommute`, need not hold bit-for-bit in floats.
- Termination of `mod_angle` in floats. The `decreases` clauses of `RaiseAngle` and `LowerAngle` hold for exact reals only. In float64, `mod_angle` loops forever on ±infinity and on any angle of magnitude at least 2^56 (about 7.2e16), because adding or subtracting 2π rounds back to the same value. The constructor does not validate `ball_vel_0`, so such an angle can reach it.
- `Angles.ModAngle`: its clause "an input below 2π never wraps to 2π" holds for exact reals only. In float64, `-1e-20 + 2*np.pi` rounds to `2*np.pi`, so `mod_angle(-1e-20)` returns 2π.
- `Angles.FlipX`: its clause "strictly below 2π above -π" holds for exact reals only, for the same rounding reason.
- `Angles.FlipY`: its upper bound "strictly below 2π" holds for exact reals only. The last `mod_angle` of `flip_angle_y` can round a tiny negative intermediate up to 2π.
- `Stepper.BallUpdateDirection`: its clause "strictly below 2π after a bounce" holds for exact reals only, because it rests on the three clauses above.
- The file write, the progress bar and the default length of `save_trajectory` (`np.save`, `dest`, `tqdm`, lines 126-128, 136-139). The model returns the frames. The number of timesteps is always an explicit argument; the source defaults it to 1000.
- `animate_trajectory` (lines 141-157). It is matplotlib plotting and a file load.
- `main.py`. It is argument parsing and driver plumbing.
- Scoring. The two scores are carried through unchanged, because no operation ever updates them.
- Colours as `uint8` arrays. A colour is a triple of bytes. The NumPy broadcasting of `reset_frame` is modelled by its effect: every pixel takes the background colour.
- Object mutation after a failure. When `get_abs_pos`'s assertion fires inside `save_trajectory`, the model reports which frame failed. It does not model the partly updated object the exception leaves behind.
- `Trajectory.SavePongTrajectory`: proves success only under the small-move bound, not for every draw. Without such a bound the ball can leave the box (`Stepper.BallCanEscape`), and `Trajectory.SaveTrajectory` then fails with the index of the frame that failed.

## Behaviour of the code worth knowing

Facts about the code that are easy to get wrong:

- `mod_angle` can return exactly 2π, because its second loop runs only while
  the angle is strictly above 2π. Its range is therefore the closed [0, 2π],
  not [0, 2π) (`Angles.ModAngleKeepsTwoPi`). `flip_angle_x` returns 2π at
  angle -π. Over exact reals `flip_angle_y` never returns 2π (`Angles.FlipY`);
  in floating point it can, through rounding.
- `mod_pos` applies its two folds one after the other. It therefore restores
  the range exactly for inputs in [-3, 5], not just [-3, 3]: an input in
  (3, 5] is folded twice. It leaves everything outside [-3, 5] out of range
  (`Stepper.ModPos`, `Stepper.ModPosExamples`).
- A step does not keep the ball in [-1, 1] for every noise draw
  (`Stepper.BallCanEscape`). A large draw therefore makes a later `draw_frame`
  fail its assertion, and `Trajectory.SaveTrajectory` models that failure.
- The pixel margin of `get_abs_pos` does not keep the stamps inside the
  frame. At the high edge the ball's plus-shape and the paddle's band reach
  index 32, and NumPy's slice clipping drops those pixels
  (`Raster.StampsHangOffHighEdge`).
- The constructor validates nothing (`State.NewPongState`). A state built
  with out-of-range components is accepted as it is. The only check the
  code ever makes is `get_abs_pos`'s assertion, when a state is drawn.

=== FILE: angles.dfy ===
/**
  Angle normalisation and the two reflection rules of the Pong physics
  (datasets/pong.py, `mod_angle`, `flip_angle_x`, `flip_angle_y`).

  Angles are exact reals. `Pi` is the shortest decimal that rounds to the
  64-bit float `np.pi`, `HalfPi` and `TwoPi` are exactly its half and
  double. The facts that a result stays strictly below 2*pi hold for exact
  reals; in floating point, adding 2*pi to a tiny negative angle can round
  up to 2*pi itself. Termination of `RaiseAngle` and `LowerAngle` is also
  an exact-real fact: in float64 the loops of `mod_angle` never end on an
  infinite angle or one of magnitude at least 2^56.
 */
module Angles {

  const Pi: real := 3.141592653589793
  const HalfPi: real := 1.5707963267948965
  const TwoPi: real := 6.283185307179586

  /** The two derived constants are exactly half and double `Pi`. */
  lemma PiRelations()
    ensures HalfPi == Pi / 2.0 && TwoPi == 2.0 * Pi
  {
  }

  /** True when `x` is a whole number. */
  predicate IsWhole(x: real) {
    x.Floor as real == x
  }

  /** `a` and `b` denote the same direction: they differ by a whole number of turns. */
  predicate SameAngle(a: real, b: real) {
    IsWhole((a - b) / TwoPi)
  }

  /** The first loop of `mod_angle`: add a full turn while the angle is negative. */
  function RaiseAngle(angle: real): (r: real)
    ensures 0.0 <= r
    ensures angle < 0.0 ==> r < TwoPi
    ensures 0.0 <= angle ==> r == angle
    decreases if angle < 0.0 then (-angle / TwoPi).Floor + 1 else 0
  {
    if angle < 0.0 then RaiseAngle(angle + TwoPi) else angle
  }

  /** The second loop of `mod_angle`: subtract a full turn while the angle exceeds 2*pi. */
  function LowerAngle(angle: real): (r: real)
    ensures r <= TwoPi
    ensures TwoPi < angle ==> 0.0 < r
    ensures angle <= TwoPi ==> r == angle
    decreases if TwoPi < angle then (angle / TwoPi).Floor else 0
  {
    if TwoPi < angle then LowerAngle(angle - TwoPi) else angle
  }

  /**
    `mod_angle`: the result lies in the CLOSED range [0, 2*pi] -- 2*pi itself
    is kept, because the second loop only runs while the angle is strictly
    above 2*pi. Angles already in range are returned unchanged, and an angle
    strictly below 2*pi never wraps to 2*pi.
   */
  function ModAngle(angle: real): (r: real)
    ensures 0.0 <= r <= TwoPi
    ensures 0.0 <= angle <= TwoPi ==> r == angle
    ensures angle < TwoPi ==> r < TwoPi
    ensures TwoPi < angle ==> 0.0 < r
  {
    LowerAngle(RaiseAngle(angle))
  }

  /** `flip_angle_x`: reflection of the direction in a vertical wall. */
  function FlipX(angle: real): (r: real)
    ensures 0.0 <= r <= TwoPi
    ensures -Pi < angle ==> r < TwoPi
  {
    ModAngle(Pi - angle)
  }

  /**
    `flip_angle_y`: rotate by +pi/2, apply the x-rule, rotate back by -pi/2,
    wrapping after every sub-step. Its last wrap is applied to a value below
    3*pi/2, so over exact reals, unlike `ModAngle`, it never yields 2*pi.
   */
  function FlipY(angle: real): (r: real)
    ensures 0.0 <= r < TwoPi
  {
    var turned := ModAngle(angle + HalfPi);
    var flipped := ModAngle(Pi - turned);
    ModAngle(flipped - HalfPi)
  }

  // ---------------------------------------------------------------------
  // Whole numbers and the angle congruence

  lemma WholeOf(n: int)
    ensures IsWhole(n as real)
  {
  }

  lemma WholeShift(x: real)
    requires IsWhole(x)
    ensures IsWhole(x + 1.0) && IsWhole(x - 1.0) && IsWhole(-x)
  {
    var n := x.Floor;
    WholeOf(n + 1);
    WholeOf(n - 1);
    WholeOf(-n);
    assert x == n as real;
    assert x + 1.0 == (n + 1) as real;
    assert x - 1.0 == (n - 1) as real;
    assert -x == (-n) as real;
  }

  lemma WholeSum(x: real, y: real)
    requires IsWhole(x) && IsWhole(y)
    ensures IsWhole(x + y)
  {
    var n, m := x.Floor, y.Floor;
    assert x + y == (n + m) as real;
  }

  /** A whole number strictly between -1 and 1 is zero. */
  lemma WholeNearZero(x: real)
    requires IsWhole(x) && -1.0 < x < 1.0
    ensures x == 0.0
  {
    var n := x.Floor;
    assert -1 < n < 1;
  }

  lemma SameAngleRefl(a: real)
    ensures SameAngle(a, a)
  {
    assert (a - a) / TwoPi == 0.0;
    assert 0.0.Floor == 0;
  }

  lemma SameAngleSym(a: real, b: real)
    requires SameAngle(a, b)
    ensures SameAngle(b, a)
  {
    WholeShift((a - b) / TwoPi);
    assert (b - a) / TwoPi == -((a - b) / TwoPi);
  }

  lemma SameAngleTrans(a: real, b: real, c: real)
    requires SameAngle(a, b) && SameAngle(b, c)
    ensures SameAngle(a, c)
  {
    WholeSum((a - b) / TwoPi, (b - c) / TwoPi);
    assert (a - c) / TwoPi == (a - b) / TwoPi + (b - c) / TwoPi;
  }

  /** Adding or removing one full turn keeps the direction. */
  lemma SameAngleTurn(a: real, b: real)
    requires SameAngle(a, b)
    ensures SameAngle(a + TwoPi, b) && SameAngle(a - TwoPi, b)
  {
    WholeShift((a - b) / TwoPi);
    assert (a + TwoPi - b) / TwoPi == (a - b) / TwoPi + 1.0;
    assert (a - TwoPi - b) / TwoPi == (a - b) / TwoPi - 1.0;
  }

  /** Congruent angles stay congruent when both are mirrored about `c`. */
  lemma SameAngleMirror(a: real, b: real, c: real)
    requires SameAngle(a, b)
    ensures SameAngle(c - a, c - b)
  {
    WholeShift((a - b) / TwoPi);
    assert ((c - a) - (c - b)) / TwoPi == -((a - b) / TwoPi);
  }

  /** Congruent angles stay congruent when both are rotated by `c`. */
  lemma SameAngleRotate(a: real, b: real, c: real)
    requires SameAngle(a, b)
    ensures SameAngle(a + c, b + c)
  {
    assert ((a + c) - (b + c)) / TwoPi == (a - b) / TwoPi;
  }

  /** Two congruent angles in the half-open turn [0, 2*pi) are equal. */
  lemma SameAngleUnique(a: real, b: real)
    requires 0.0 <= a < TwoPi && 0.0 <= b < TwoPi
    requires SameAngle(a, b)
    ensures a == b
  {
    WholeNearZero((a - b) / TwoPi);
  }

  /** Two congruent angles in the half-open turn (0, 2*pi] are equal. */
  lemma SameAngleUniqueUpper(a: real, b: real)
    requires 0.0 < a <= TwoPi && 0.0 < b <= TwoPi
    requires SameAngle(a, b)
    ensures a == b
  {
    WholeNearZero((a - b) / TwoPi);
  }

  // ---------------------------------------------------------------------
  // Properties of ModAngle

  lemma {:induction false} RaiseAngleSame(angle: real)
    ensures SameAngle(RaiseAngle(angle), angle)
    decreases if angle < 0.0 then (-angle / TwoPi).Floor + 1 else 0
  {
    if angle < 0.0 {
      RaiseAngleSame(angle + TwoPi);
      SameAngleSym(RaiseAngle(angle + TwoPi), angle + TwoPi);
      SameAngleTurn(angle + TwoPi, RaiseAngle(angle + TwoPi));
      assert angle + TwoPi - TwoPi == angle;
      SameAngleSym(angle, RaiseAngle(angle));
    } else {
      SameAngleRefl(angle);
    }
  }

  lemma {:induction false} LowerAngleSame(angle: real)
    ensures SameAngle(LowerAngle(angle), angle)
    decreases if TwoPi < angle then (angle / TwoPi).Floor else 0
  {
    if TwoPi < angle {
      LowerAngleSame(angle - TwoPi);
      SameAngleSym(LowerAngle(angle - TwoPi), angle - TwoPi);
      SameAngleTurn(angle - TwoPi, LowerAngle(angle - TwoPi));
      assert angle - TwoPi + TwoPi == angle;
      SameAngleSym(angle, LowerAngle(angle));
    } else {
      SameAngleRefl(angle);
    }
  }

  /** `mod_angle` only ever adds or removes whole turns. */
  lemma ModAngleSame(angle: real)
    ensures SameAngle(ModAngle(angle), angle)
  {
    RaiseAngleSame(angle);
    LowerAngleSame(RaiseAngle(angle));
    SameAngleTrans(ModAngle(angle), RaiseAngle(angle), angle);
  }

  /**
    Reference description of `mod_angle`: the unique congruent angle in
    [0, 2*pi) for a negative input, the input itself on [0, 2*pi], and the
    unique congruent angle in (0, 2*pi] above 2*pi.
   */
  ghost predicate IsWrapOf(angle: real, r: real) {
    && SameAngle(r, angle)
    && (if angle < 0.0 then 0.0 <= r < TwoPi
        else if angle <= TwoPi then r == angle
        else 0.0 < r <= TwoPi)
  }

  /** `ModAngle` computes exactly the reference wrap, and nothing else does. */
  lemma ModAngleIsWrap(angle: real, r: real)
    ensures IsWrapOf(angle, r) <==> r == ModAngle(angle)
  {
    ModAngleSame(angle);
    if IsWrapOf(angle, r) {
      SameAngleSym(ModAngle(angle), angle);
      SameAngleTrans(r, angle, ModAngle(angle));
      if angle < 0.0 {
        SameAngleUnique(r, ModAngle(angle));
      } else if TwoPi < angle {
        SameAngleUniqueUpper(r, ModAngle(angle));
      }
    }
  }

  lemma ModAngleIdempotent(angle: real)
    ensures ModAngle(ModAngle(angle)) == ModAngle(angle)
  {
  }

  /**
    2*pi is a fixed point of `mod_angle`, and so is 0, although the two are
    the same direction: the closed range gives one direction two
    representatives. Multiples of 2*pi above 0 wrap to 2*pi.
   */
  lemma ModAngleKeepsTwoPi()
    ensures ModAngle(TwoPi) == TwoPi
    ensures ModAngle(2.0 * TwoPi) == TwoPi
    ensures SameAngle(0.0, TwoPi) && ModAngle(0.0) != ModAngle(TwoPi)
  {
    assert LowerAngle(2.0 * TwoPi) == LowerAngle(TwoPi);
    assert (0.0 - TwoPi) / TwoPi == -1.0;
    assert (-1.0).Floor == -1;
  }

  // ---------------------------------------------------------------------
  // Properties of the reflections

  lemma FlipXSame(angle: real)
    ensures SameAngle(FlipX(angle), Pi - angle)
  {
    ModAngleSame(Pi - angle);
  }

  /** Reflecting twice in a vertical wall restores the direction, up to whole turns. */
  lemma FlipXTwiceSame(angle: real)
    ensures SameAngle(FlipX(FlipX(angle)), angle)
  {
    FlipXSame(angle);
    FlipXSame(FlipX(angle));
    SameAngleMirror(FlipX(angle), Pi - angle, Pi);
    assert Pi - (Pi - angle) == angle;
    SameAngleTrans(FlipX(FlipX(angle)), Pi - FlipX(angle), angle);
  }

  /** On [0, 2*pi) the x-reflection is an exact involution. */
  lemma FlipXInvolution(angle: real)
    requires 0.0 <= angle < TwoPi
    ensures FlipX(FlipX(angle)) == angle
  {
    FlipXTwiceSame(angle);
    assert FlipX(angle) < TwoPi;
    SameAngleUnique(FlipX(FlipX(angle)), angle);
  }

  /**
    2*pi is where the involution breaks: 2*pi goes to pi and back to 0. The
    x-reflection itself yields 2*pi, at -pi.
   */
  lemma FlipXAtTwoPi()
    ensures FlipX(-Pi) == TwoPi
    ensures FlipX(0.0) == Pi
    ensures FlipX(TwoPi) == Pi
    ensures FlipX(Pi) == 0.0
    ensures FlipX(FlipX(TwoPi)) != TwoPi
  {
    assert RaiseAngle(Pi - TwoPi) == RaiseAngle(Pi - TwoPi + TwoPi);
  }

  lemma FlipYSame(angle: real)
    ensures SameAngle(FlipY(angle), -angle)
  {
    var turned := ModAngle(angle + HalfPi);
    var flipped := ModAngle(Pi - turned);
    ModAngleSame(angle + HalfPi);
    ModAngleSame(Pi - turned);
    ModAngleSame(flipped - HalfPi);
    SameAngleMirror(turned, angle + HalfPi, Pi);
    assert Pi - (angle + HalfPi) == HalfPi - angle;
    SameAngleTrans(flipped, Pi - turned, HalfPi - angle);
    SameAngleRotate(flipped, HalfPi - angle, -HalfPi);
    assert HalfPi - angle + -HalfPi == -angle;
    assert flipped + -HalfPi == flipped - HalfPi;
    SameAngleTrans(FlipY(angle), flipped - HalfPi, -angle);
  }

  /**
    Under exact arithmetic the composed y-reflection is plain negation
    followed by `mod_angle`, for every angle above -2*pi.
   */
  lemma FlipYIsNegation(angle: real)
    requires -TwoPi < angle
    ensures FlipY(angle) == ModAngle(-angle)
  {
    FlipYSame(angle);
    ModAngleSame(-angle);
    SameAngleSym(ModAngle(-angle), -angle);
    SameAngleTrans(FlipY(angle), -angle, ModAngle(-angle));
    SameAngleUnique(FlipY(angle), ModAngle(-angle));
  }

  /** At -2*pi the two differ: negation wraps to 2*pi, the composed rule to 0. */
  lemma FlipYNegationBreaks()
    ensures FlipY(-TwoPi) == 0.0
    ensures ModAngle(TwoPi) == TwoPi
  {
    assert RaiseAngle(-TwoPi + HalfPi) == -TwoPi + HalfPi + TwoPi;
  }

  lemma FlipYExamples()
    ensures FlipY(HalfPi) == 3.0 * HalfPi
    ensures FlipY(0.0) == 0.0
  {
    assert RaiseAngle(-HalfPi) == RaiseAngle(-HalfPi + TwoPi);
  }

  lemma FlipYTwiceSame(angle: real)
    ensures SameAngle(FlipY(FlipY(angle)), angle)
  {
    FlipYSame(angle);
    FlipYSame(FlipY(angle));
    SameAngleMirror(FlipY(angle), -angle, 0.0);
    assert 0.0 - (-angle) == angle;
    assert 0.0 - FlipY(angle) == -FlipY(angle);
    SameAngleTrans(FlipY(FlipY(angle)), -FlipY(angle), angle);
  }

  /** On [0, 2*pi) the y-reflection is an exact involution. */
  lemma FlipYInvolution(angle: real)
    requires 0.0 <= angle < TwoPi
    ensures FlipY(FlipY(angle)) == angle
  {
    FlipYTwiceSame(angle);
    SameAngleUnique(FlipY(FlipY(angle)), angle);
  }

  /** Turning back by half a turn is turning forward by half a turn. */
  lemma HalfTurnsAgree(angle: real)
    ensures SameAngle(angle - Pi, angle + Pi)
  {
    assert ((angle - Pi) - (angle + Pi)) / TwoPi == -1.0;
    assert (-1.0).Floor == -1;
  }

  /** A corner bounce handled x-first turns the direction by half a turn. */
  lemma FlipYAfterFlipXSame(angle: real)
    ensures SameAngle(FlipY(FlipX(angle)), angle + Pi)
  {
    FlipXSame(angle);
    FlipYSame(FlipX(angle));
    SameAngleMirror(FlipX(angle), Pi - angle, 0.0);
    assert 0.0 - FlipX(angle) == -FlipX(angle);
    assert 0.0 - (Pi - angle) == angle - Pi;
    SameAngleTrans(FlipY(FlipX(angle)), -FlipX(angle), angle - Pi);
    HalfTurnsAgree(angle);
    SameAngleTrans(FlipY(FlipX(angle)), angle - Pi, angle + Pi);
  }

  /** A corner bounce handled y-first also turns the direction by half a turn. */
  lemma FlipXAfterFlipYSame(angle: real)
    ensures SameAngle(FlipX(FlipY(angle)), angle + Pi)
  {
    FlipYSame(angle);
    FlipXSame(FlipY(angle));
    SameAngleMirror(FlipY(angle), -angle, Pi);
    assert Pi - (-angle) == angle + Pi;
    SameAngleTrans(FlipX(FlipY(angle)), Pi - FlipY(angle), angle + Pi);
  }

  /**
    The two reflections commute exactly, for every angle: a corner bounce
    gives the same direction whichever wall is handled first.
   */
  lemma FlipsCommute(angle: real)
    ensures FlipY(FlipX(angle)) == FlipX(FlipY(angle))
  {
    FlipYAfterFlipXSame(angle);
    FlipXAfterFlipYSame(angle);
    SameAngleSym(FlipX(FlipY(angle)), angle + Pi);
    SameAngleTrans(FlipY(FlipX(angle)), angle + Pi, FlipX(FlipY(angle)));
    assert FlipY(angle) < TwoPi;
    SameAngleUnique(FlipY(FlipX(angle)), FlipX(FlipY(angle)));
  }
}

=== FILE: raster.dfy ===
/**
  The rasteriser of datasets/pong.py: `get_abs_pos`, `reset_frame`,
  `draw_ball`, `draw_paddles` and `draw_frame`.

  A frame is a 32 x 32 grid of colours indexed `frame[row][column]`; the
  ball's x-coordinate selects the row and its y-coordinate the column.
  Every stamp is a NumPy slice assignment, and NumPy silently drops the
  part of a slice that lies beyond the frame; `Assign` clips the same way.
 */
module Raster {
  import opened State

  /** Width and height of a frame, in pixels. */
  const FrameScale: int := 32

  function Min(a: int, b: int): int { if a <= b then a else b }
  function Max(a: int, b: int): int { if a <= b then b else a }

  /** Python's `int()` of a float: truncation toward zero. */
  function Trunc(x: real): (n: int)
    ensures 0.0 <= x ==> n as real <= x < n as real + 1.0
    ensures x < 0.0 ==> n as real - 1.0 < x <= n as real
  {
    if 0.0 <= x then x.Floor else -((-x).Floor)
  }

  /** The affine map of `get_abs_pos`, before truncation. */
  function Scaled(rel: real, width: int): real {
    width as real + (FrameScale - 2 * width) as real * (0.5 * rel + 0.5)
  }

  /**
    `get_abs_pos`: a relative coordinate in [-1, 1] (the source asserts
    this) becomes a pixel index that keeps a margin of `width` from the low
    edge and lies at most `FrameScale - width` -- one past the last index
    when `width` is 0, the last index when it is 1.
   */
  function GetAbsPos(rel: real, width: int): (p: int)
    requires InUnit(rel)
    ensures width <= FrameScale - width ==> width <= p <= FrameScale - width
    ensures FrameScale - width < width ==> p == width
  {
    Max(width, Min(Trunc(Scaled(rel, width)), FrameScale - width))
  }

  lemma ScaledBounds(rel: real, width: int)
    requires InUnit(rel) && 0 <= width <= FrameScale - width
    ensures width as real <= Scaled(rel, width) <= (FrameScale - width) as real
  {
    var k := (FrameScale - 2 * width) as real;
    var t := 0.5 * rel + 0.5;
    assert 0.0 <= t <= 1.0;
    assert 0.0 <= k * t <= k by {
      assert k * t <= k * 1.0;
    }
  }

  /**
    Reference description of `get_abs_pos` for the margins the renderer
    uses: the floor of the affine map. The clamp never fires there.
   */
  lemma GetAbsPosIsFloor(rel: real, width: int)
    requires InUnit(rel) && 0 <= width <= FrameScale - width
    ensures GetAbsPos(rel, width) == Scaled(rel, width).Floor
  {
    ScaledBounds(rel, width);
    assert width <= Scaled(rel, width).Floor <= FrameScale - width;
  }

  lemma ScaledMonotone(a: real, b: real, width: int)
    requires a <= b
    requires width <= FrameScale - width
    ensures Scaled(a, width) <= Scaled(b, width)
  {
    var k := (FrameScale - 2 * width) as real;
    assert 0.0 <= k;
    assert k * (0.5 * a + 0.5) <= k * (0.5 * b + 0.5) by {
      assert k * (0.5 * b + 0.5) - k * (0.5 * a + 0.5) == k * (0.5 * (b - a));
    }
  }

  /** `get_abs_pos` is monotone in the relative coordinate, for every margin. */
  lemma GetAbsPosMonotone(a: real, b: real, width: int)
    requires InUnit(a) && InUnit(b) && a <= b
    ensures GetAbsPos(a, width) <= GetAbsPos(b, width)
  {
    if width <= FrameScale - width {
      ScaledMonotone(a, b, width);
      var sa, sb := Scaled(a, width), Scaled(b, width);
      assert Trunc(sa) <= Trunc(sb) by {
        if 0.0 <= sa {
          assert sa.Floor <= sb.Floor;
        } else if sb < 0.0 {
          assert (-sb).Floor <= (-sa).Floor;
        }
      }
    }
  }

  lemma GetAbsPosExamples()
    ensures GetAbsPos(-1.0, 1) == 1
    ensures GetAbsPos(0.0, 1) == 16
    ensures GetAbsPos(1.0, 1) == 31
    ensures GetAbsPos(-1.0, 2) == 2
    ensures GetAbsPos(0.0, 2) == 16
    ensures GetAbsPos(1.0, 2) == 30
  {
    assert Scaled(0.0, 1) == 16.0;
    assert Scaled(1.0, 1) == 31.0;
    assert Scaled(-1.0, 2) == 2.0;
    assert Scaled(0.0, 2) == 16.0;
    assert Scaled(1.0, 2) == 30.0;
  }

  /**
    The margins do not keep the stamps inside the frame: at the high edge
    the ball's anchor is the last index, so its plus-shape reaches index 32,
    and the paddle's anchor is 30, so its 5-pixel band reaches index 32 too.
    Those pixels are dropped by the slice clipping.
   */
  lemma StampsHangOffHighEdge()
    ensures GetAbsPos(1.0, 1) + 1 == FrameScale
    ensures GetAbsPos(1.0, 2) + 2 == FrameScale
  {
    GetAbsPosExamples();
  }

  // ---------------------------------------------------------------------
  // Frames and clipped slice assignment

  predicate IsGrid(f: seq<seq<Color>>) {
    |f| == FrameScale && forall i | 0 <= i < |f| :: |f[i]| == FrameScale
  }

  /** A 32 x 32 RGB image. */
  type Frame = f: seq<seq<Color>> | IsGrid(f)
    witness seq(FrameScale, _ => seq(FrameScale, _ => White))

  /** Python's normalisation of a slice bound for a sequence of length `n`. */
  function SliceBound(i: int, n: nat): (b: nat)
    ensures b <= n
    ensures 0 <= i <= n ==> b == i
    ensures n < i ==> b == n
    ensures i < 0 ==> b == (if i + n < 0 then 0 else i + n)
  {
    if i < 0 then (if i + n < 0 then 0 else i + n)
    else if n < i then n
    else i
  }

  /** The slice `start:stop` (step 1). */
  datatype Slice = Slice(start: int, stop: int)

  /** Index `i` of a sequence of length `n` is selected by the slice. */
  predicate InSlice(i: int, sl: Slice, n: nat) {
    SliceBound(sl.start, n) <= i < SliceBound(sl.stop, n)
  }

  /** A slice starting inside the frame selects the indices of its nominal range that exist. */
  lemma ClippedSlice(lo: int, hi: int, i: int)
    requires 0 <= lo <= FrameScale && lo <= hi && 0 <= i < FrameScale
    ensures InSlice(i, Slice(lo, hi), FrameScale) <==> lo <= i < hi
  {
  }

  /** The row with the positions `lo .. hi-1` overwritten by `c`. */
  function FillRow(row: seq<Color>, lo: nat, hi: nat, c: Color): (r: seq<Color>)
    requires lo <= hi <= |row|
    ensures |r| == |row|
    ensures forall j | 0 <= j < |row| :: r[j] == (if lo <= j < hi then c else row[j])
  {
    row[..lo] + seq(hi - lo, _ => c) + row[hi..]
  }

  /** Every row of `rows` with its columns `lo .. hi-1` overwritten by `c`. */
  function FillRows(rows: seq<seq<Color>>, lo: nat, hi: nat, c: Color): (r: seq<seq<Color>>)
    requires lo <= hi <= FrameScale
    requires forall k | 0 <= k < |rows| :: |rows[k]| == FrameScale
    ensures |r| == |rows|
    ensures forall k | 0 <= k < |r| :: |r[k]| == FrameScale
    ensures forall k, j | 0 <= k < |rows| && 0 <= j < FrameScale ::
              r[k][j] == (if lo <= j < hi then c else rows[k][j])
  {
    if rows == [] then []
    else [FillRow(rows[0], lo, hi, c)] + FillRows(rows[1..], lo, hi, c)
  }

  /** The frame with the rectangle of rows `rlo .. rhi-1` and columns `clo .. chi-1` painted `c`. */
  function Paint(f: Frame, rlo: nat, rhi: nat, clo: nat, chi: nat, c: Color): (g: Frame)
    requires rlo <= rhi <= FrameScale && clo <= chi <= FrameScale
    ensures forall i, j | 0 <= i < FrameScale && 0 <= j < FrameScale ::
              g[i][j] == (if rlo <= i < rhi && clo <= j < chi then c else f[i][j])
  {
    var filled := FillRows(f[rlo..rhi], clo, chi, c);
    var g := f[..rlo] + filled + f[rhi..];
    assert forall i | 0 <= i < FrameScale :: g[i] == (if rlo <= i < rhi then filled[i - rlo] else f[i]);
    g
  }

  /**
    `frame[rows, cols, :] = c`: the pixels whose row and column both fall in
    the (clipped) slices take colour `c`; every other pixel is unchanged.
   */
  function Assign(f: Frame, rows: Slice, cols: Slice, c: Color): (g: Frame)
    ensures forall i, j | 0 <= i < FrameScale && 0 <= j < FrameScale ::
              g[i][j] == (if InSlice(i, rows, FrameScale) && InSlice(j, cols, FrameScale) then c else f[i][j])
  {
    var rlo := SliceBound(rows.start, FrameScale);
    var rhi := Max(rlo, SliceBound(rows.stop, FrameScale));
    var clo := SliceBound(cols.start, FrameScale);
    var chi := Max(clo, SliceBound(cols.stop, FrameScale));
    assert forall i | 0 <= i < FrameScale :: InSlice(i, rows, FrameScale) <==> rlo <= i < rhi;
    assert forall j | 0 <= j < FrameScale :: InSlice(j, cols, FrameScale) <==> clo <= j < chi;
    Paint(f, rlo, rhi, clo, chi, c)
  }

  /** An assignment whose slices start inside the frame paints the in-frame part of its nominal rectangle. */
  lemma AssignClipped(f: Frame, rlo: int, rhi: int, clo: int, chi: int, c: Color)
    requires 0 <= rlo <= FrameScale && rlo <= rhi
    requires 0 <= clo <= FrameScale && clo <= chi
    ensures forall i, j | 0 <= i < FrameScale && 0 <= j < FrameScale ::
              Assign(f, Slice(rlo, rhi), Slice(clo, chi), c)[i][j] ==
              (if rlo <= i < rhi && clo <= j < chi then c else f[i][j])
  {
    forall i, j | 0 <= i < FrameScale && 0 <= j < FrameScale
      ensures Assign(f, Slice(rlo, rhi), Slice(clo, chi), c)[i][j] ==
              (if rlo <= i < rhi && clo <= j < chi then c else f[i][j])
    {
      ClippedSlice(rlo, rhi, i);
      ClippedSlice(clo, chi, j);
    }
  }

  // ---------------------------------------------------------------------
  // Drawing

  /** `reset_frame`: every pixel takes the background colour. */
  function ResetFrame(background: Color): (f: Frame)
    ensures forall i, j | 0 <= i < FrameScale && 0 <= j < FrameScale :: f[i][j] == background
  {
    seq(FrameScale, _ => seq(FrameScale, _ => background))
  }

  /** Pixel (i, j) belongs to the plus-shape centred on (x, y): a 3-cell column run and a 3-cell row run. */
  predicate InPlus(x: int, y: int, i: int, j: int) {
    (j == y && x - 1 <= i <= x + 1) || (i == x && y - 1 <= j <= y + 1)
  }

  /** Pixel (i, j) lies in the 5-column band centred on `center` in rows `top .. top+1`. */
  predicate InBand(top: int, center: int, i: int, j: int) {
    top <= i < top + 2 && center - 2 <= j <= center + 2
  }

  /**
    `draw_ball`: the in-frame pixels of the plus-shape around the ball's
    pixel become the ball colour; everything else is left as it was.
   */
  function DrawBall(s: PongState, f: Frame): (g: Frame)
    requires InUnit(s.ballX) && InUnit(s.ballY)
    ensures forall i, j | 0 <= i < FrameScale && 0 <= j < FrameScale ::
              g[i][j] == (if InPlus(GetAbsPos(s.ballX, 1), GetAbsPos(s.ballY, 1), i, j) then s.ballColor else f[i][j])
  {
    var x := GetAbsPos(s.ballX, 1);
    var y := GetAbsPos(s.ballY, 1);
    // `frame[x-1:x+2, y]`: the column index y is in range, so it acts as the slice y:y+1
    var vertical := Assign(f, Slice(x - 1, x + 2), Slice(y, y + 1), s.ballColor);
    AssignClipped(f, x - 1, x + 2, y, y + 1, s.ballColor);
    AssignClipped(vertical, x, x + 1, y - 1, y + 2, s.ballColor);
    Assign(vertical, Slice(x, x + 1), Slice(y - 1, y + 2), s.ballColor)
  }

  /**
    `draw_paddles`: the protagonist's band in the two top rows, then the
    antagonist's band in the two bottom rows, clipped at the frame edge.
   */
  function DrawPaddles(s: PongState, f: Frame): (g: Frame)
    requires InUnit(s.proPaddleY) && InUnit(s.antPaddleY)
    ensures forall i, j | 0 <= i < FrameScale && 0 <= j < FrameScale ::
              g[i][j] == (if InBand(0, GetAbsPos(s.proPaddleY, 2), i, j) then s.proColor
                          else if InBand(FrameScale - 2, GetAbsPos(s.antPaddleY, 2), i, j) then s.antColor
                          else f[i][j])
  {
    var pro := GetAbsPos(s.proPaddleY, 2);
    var top := Assign(f, Slice(0, 2), Slice(pro - 2, pro + 3), s.proColor);
    var ant := GetAbsPos(s.antPaddleY, 2);
    AssignClipped(f, 0, 2, pro - 2, pro + 3, s.proColor);
    AssignClipped(top, FrameScale - 2, FrameScale, ant - 2, ant + 3, s.antColor);
    Assign(top, Slice(FrameScale - 2, FrameScale), Slice(ant - 2, ant + 3), s.antColor)
  }

  /** The four coordinates `draw_frame` passes to `get_abs_pos` all satisfy its assertion. */
  predicate Drawable(s: PongState) {
    InUnit(s.ballX) && InUnit(s.ballY) && InUnit(s.proPaddleY) && InUnit(s.antPaddleY)
  }

  /**
    Reference description of a rendered pixel: paddle bands first (they are
    painted last and so cover the ball), then the ball's plus-shape, then
    the background.
   */
  function ExpectedPixel(s: PongState, i: int, j: int): Color
    requires Drawable(s)
  {
    if InBand(0, GetAbsPos(s.proPaddleY, 2), i, j) then s.proColor
    else if InBand(FrameScale - 2, GetAbsPos(s.antPaddleY, 2), i, j) then s.antColor
    else if InPlus(GetAbsPos(s.ballX, 1), GetAbsPos(s.ballY, 1), i, j) then s.ballColor
    else s.backgroundColor
  }

  /**
    `draw_frame`: background, ball, paddles. Every pixel of the 32 x 32
    result is the reference pixel; stamp cells outside the frame are simply
    absent.
   */
  function DrawFrame(s: PongState): (f: Frame)
    requires Drawable(s)
    ensures forall i, j | 0 <= i < FrameScale && 0 <= j < FrameScale :: f[i][j] == ExpectedPixel(s, i, j)
  {
    DrawPaddles(s, DrawBall(s, ResetFrame(s.backgroundColor)))
  }

  /**
    The frame depends only on the four positions and the four colours: the
    direction, speed, noise settings, scores and timestep do not show.
   */
  lemma DrawFrameIgnoresDynamics(s: PongState, t: PongState)
    requires Drawable(s)
    requires t.ballX == s.ballX && t.ballY == s.ballY
    requires t.proPaddleY == s.proPaddleY && t.antPaddleY == s.antPaddleY
    requires t.ballColor == s.ballColor && t.backgroundColor == s.backgroundColor
    requires t.proColor == s.proColor && t.antColor == s.antColor
    ensures DrawFrame(t) == DrawFrame(s)
  {
    var f, g := DrawFrame(s), DrawFrame(t);
    forall i | 0 <= i < FrameScale
      ensures f[i] == g[i]
    {
      assert forall j | 0 <= j < FrameScale :: f[i][j] == g[i][j];
    }
  }

  /** The frame of the default state: centred ball and paddles on white. */
  lemma DefaultFrame()
    ensures Drawable(DefaultState())
    ensures DrawFrame(DefaultState())[16][16] == Blue
    ensures DrawFrame(DefaultState())[15][16] == Blue
    ensures DrawFrame(DefaultState())[16][17] == Blue
    ensures DrawFrame(DefaultState())[17][17] == White
    ensures DrawFrame(DefaultState())[0][14] == Green
    ensures DrawFrame(DefaultState())[1][18] == Green
    ensures DrawFrame(DefaultState())[31][16] == Red
    ensures DrawFrame(DefaultState())[30][19] == White
  {
    GetAbsPosExamples();
  }
}

=== FILE: state.dfy ===
/**
  The simulation state of `PongState` (datasets/pong.py, constructor) and
  the random draws one timestep consumes.
 */
module State {
  import Angles

  newtype byte = x: int | 0 <= x < 256

  /** An RGB colour, stored as three unsigned 8-bit channels. */
  datatype Color = Color(red: byte, green: byte, blue: byte)

  const Blue: Color := Color(0, 0, 255)
  const White: Color := Color(255, 255, 255)
  const Green: Color := Color(0, 255, 0)
  const Red: Color := Color(255, 0, 0)

  /**
    Everything a `PongState` object holds. Positions and the angle are exact
    reals; the scores are carried along but never changed by any operation.
   */
  datatype PongState = PongState(
    ballX: real,
    ballY: real,
    ballVel: real,
    ballSpeed: real,
    proPaddleY: real,
    antPaddleY: real,
    proScore: int,
    antScore: int,
    ballNoise: real,
    paddleNoise: real,
    timestep: nat,
    ballColor: Color,
    backgroundColor: Color,
    proColor: Color,
    antColor: Color)

  /**
    The five random terms one timestep adds, in the order the source
    requests them: ball x, ball y, ball angle, protagonist paddle,
    antagonist paddle. Each is a deviation times a standard-normal draw;
    `ScaleDraws` forms them from raw draws.
   */
  datatype Draws = Draws(ballX: real, ballY: real, ballVel: real, pro: real, ant: real)

  /**
    The noise terms of a step from five raw N(0,1) draws: the ball's three
    use the ball deviation, the paddles' two the paddle deviation.
   */
  function ScaleDraws(s: PongState, z: Draws): (d: Draws)
    ensures d.ballX == s.ballNoise * z.ballX && d.ballY == s.ballNoise * z.ballY
    ensures d.ballVel == s.ballNoise * z.ballVel
    ensures d.pro == s.paddleNoise * z.pro && d.ant == s.paddleNoise * z.ant
    ensures s.ballNoise == 0.0 ==> d.ballX == 0.0 && d.ballY == 0.0 && d.ballVel == 0.0
    ensures s.paddleNoise == 0.0 ==> d.pro == 0.0 && d.ant == 0.0
    ensures z == Draws(0.0, 0.0, 0.0, 0.0, 0.0) ==> d == z
  {
    Draws(s.ballNoise * z.ballX, s.ballNoise * z.ballY, s.ballNoise * z.ballVel,
          s.paddleNoise * z.pro, s.paddleNoise * z.ant)
  }

  /**
    The constructor: stores every argument as given, with no validation,
    and starts the timestep counter at 0.
   */
  function NewPongState(
    ballX0: real, ballY0: real, ballVel0: real,
    proPaddleY0: real, antPaddleY0: real,
    proScore0: int, antScore0: int,
    ballSpeed: real, ballNoise: real, paddleNoise: real,
    ballColor: Color, backgroundColor: Color, proColor: Color, antColor: Color): (s: PongState)
    ensures s.timestep == 0
    ensures s.ballX == ballX0 && s.ballY == ballY0 && s.ballVel == ballVel0
    ensures s.proPaddleY == proPaddleY0 && s.antPaddleY == antPaddleY0
    ensures s.proScore == proScore0 && s.antScore == antScore0
    ensures s.ballSpeed == ballSpeed && s.ballNoise == ballNoise && s.paddleNoise == paddleNoise
    ensures s.ballColor == ballColor && s.backgroundColor == backgroundColor
    ensures s.proColor == proColor && s.antColor == antColor
  {
    PongState(ballX0, ballY0, ballVel0, ballSpeed, proPaddleY0, antPaddleY0,
              proScore0, antScore0, ballNoise, paddleNoise, 0,
              ballColor, backgroundColor, proColor, antColor)
  }

  /** The constructor's default arguments: centred ball and paddles, angle pi/7. */
  function DefaultState(): (s: PongState)
    ensures s.timestep == 0
    ensures s.ballSpeed == 0.2 && s.ballNoise == 0.05 && s.paddleNoise == 0.1
    ensures s.ballX == 0.0 && s.ballY == 0.0 && s.ballVel == Angles.Pi / 7.0
    ensures s.proPaddleY == 0.0 && s.antPaddleY == 0.0
    ensures s.proScore == 0 && s.antScore == 0
    ensures s.ballColor == Blue && s.backgroundColor == White
    ensures s.proColor == Green && s.antColor == Red
  {
    NewPongState(0.0, 0.0, Angles.Pi / 7.0, 0.0, 0.0, 0, 0, 0.2, 0.05, 0.1,
                 Blue, White, Green, Red)
  }

  /** A coordinate the renderer accepts: within [-1, 1]. */
  predicate InUnit(v: real) {
    -1.0 <= v <= 1.0
  }
}

=== FILE: stepper.dfy ===
/**
  One simulation step of the Pong physics (datasets/pong.py, `mod_pos`,
  `update_ball_pos`, `update_paddle_pos`, `simulate_timestep`).

  The trigonometric functions are parameters (`cos`, `sin`), and the five
  random terms of a step, already scaled by the noise deviations, are an
  explicit `Draws` value (`ScaleDraws` forms them from raw draws).
 */
module Stepper {
  import opened Angles
  import opened State

  /**
    `mod_pos`: two sequential folds. A coordinate above 1 is mirrored in the
    wall at 1; the result of that, if below -1, is mirrored in the wall at -1.
    The range [-1, 1] is restored exactly for inputs in [-3, 5]: between 3 and
    5 both folds fire, and beyond that range the result stays outside.
   */
  function ModPos(pos: real): (r: real)
    ensures InUnit(pos) ==> r == pos
    ensures 1.0 < pos <= 3.0 ==> r - 1.0 == 1.0 - pos && r < 1.0
    ensures -3.0 <= pos < -1.0 ==> r + 1.0 == -1.0 - pos && -1.0 < r
    ensures InUnit(r) <==> -3.0 <= pos <= 5.0
  {
    var folded := if pos > 1.0 then 2.0 - pos else pos;
    if folded < -1.0 then -2.0 - folded else folded
  }

  lemma ModPosExamples()
    ensures ModPos(6.0) == 2.0
    ensures ModPos(4.0) == 0.0
    ensures ModPos(-4.0) == 2.0
  {
  }

  /** Folding a coordinate that is already back in range changes nothing. */
  lemma ModPosIdempotentInRange(pos: real)
    requires -3.0 <= pos <= 5.0
    ensures ModPos(ModPos(pos)) == ModPos(pos)
  {
  }

  /** `max(-1, min(v, 1))`. */
  function Clamp(v: real): (r: real)
    ensures InUnit(r)
    ensures InUnit(v) ==> r == v
    ensures 1.0 < v ==> r == 1.0
    ensures v < -1.0 ==> r == -1.0
  {
    if v < -1.0 then -1.0 else if 1.0 < v then 1.0 else v
  }

  /** The ball's x-coordinate after the motion and noise of `update_ball_pos`, before folding. */
  function NoisyX(s: PongState, cos: real -> real, d: Draws): real {
    s.ballX + cos(s.ballVel) * s.ballSpeed + d.ballX
  }

  /** The ball's y-coordinate after the motion and noise of `update_ball_pos`, before folding. */
  function NoisyY(s: PongState, sin: real -> real, d: Draws): real {
    s.ballY + sin(s.ballVel) * s.ballSpeed + d.ballY
  }

  /** The ball's direction after noise and wrapping, before any reflection. */
  function NoisyVel(s: PongState, d: Draws): real {
    ModAngle(s.ballVel + d.ballVel)
  }

  /**
    `update_ball_pos`. Each axis is folded by `mod_pos`, and its reflection
    applied to the direction, exactly when its noisy coordinate leaves
    [-1, 1]; x is handled before y. A folded coordinate is mirrored in the
    wall it crossed, and always differs from its noisy value. Only the
    ball's position and direction change.
   */
  function BallUpdate(s: PongState, cos: real -> real, sin: real -> real, d: Draws): (r: PongState)
    ensures r == s.(ballX := r.ballX, ballY := r.ballY, ballVel := r.ballVel)
    ensures 0.0 <= r.ballVel <= TwoPi
    ensures InUnit(NoisyX(s, cos, d)) ==> r.ballX == NoisyX(s, cos, d)
    ensures InUnit(NoisyY(s, sin, d)) ==> r.ballY == NoisyY(s, sin, d)
    ensures !InUnit(NoisyX(s, cos, d)) ==> r.ballX != NoisyX(s, cos, d)
    ensures !InUnit(NoisyY(s, sin, d)) ==> r.ballY != NoisyY(s, sin, d)
    ensures 1.0 < NoisyX(s, cos, d) <= 3.0 ==> r.ballX == 2.0 - NoisyX(s, cos, d)
    ensures -3.0 <= NoisyX(s, cos, d) < -1.0 ==> r.ballX == -2.0 - NoisyX(s, cos, d)
    ensures 1.0 < NoisyY(s, sin, d) <= 3.0 ==> r.ballY == 2.0 - NoisyY(s, sin, d)
    ensures -3.0 <= NoisyY(s, sin, d) < -1.0 ==> r.ballY == -2.0 - NoisyY(s, sin, d)
    ensures 3.0 < NoisyX(s, cos, d) <= 5.0 ==> r.ballX == NoisyX(s, cos, d) - 4.0
    ensures 3.0 < NoisyY(s, sin, d) <= 5.0 ==> r.ballY == NoisyY(s, sin, d) - 4.0
    ensures !InUnit(NoisyX(s, cos, d)) ==> r.ballX == ModPos(NoisyX(s, cos, d))
    ensures !InUnit(NoisyY(s, sin, d)) ==> r.ballY == ModPos(NoisyY(s, sin, d))
    ensures -3.0 <= NoisyX(s, cos, d) <= 3.0 ==> InUnit(r.ballX)
    ensures -3.0 <= NoisyY(s, sin, d) <= 3.0 ==> InUnit(r.ballY)
    ensures InUnit(NoisyX(s, cos, d)) && InUnit(NoisyY(s, sin, d)) ==> r.ballVel == NoisyVel(s, d)
  {
    var x := NoisyX(s, cos, d);
    var y := NoisyY(s, sin, d);
    var vel := NoisyVel(s, d);
    var x', vel' := if InUnit(x) then x else ModPos(x), if InUnit(x) then vel else FlipX(vel);
    var y', vel'' := if InUnit(y) then y else ModPos(y), if InUnit(y) then vel' else FlipY(vel');
    s.(ballX := x', ballY := y', ballVel := vel'')
  }

  /**
    Reference description of the direction after a step, up to whole turns:
    crossing a vertical wall mirrors the direction about pi/2 (a -> pi - a),
    crossing a horizontal wall negates it (a -> -a).
   */
  function Bounced(a: real, crossedX: bool, crossedY: bool): real {
    var afterX := if crossedX then Pi - a else a;
    if crossedY then -afterX else afterX
  }

  /**
    The direction `update_ball_pos` produces is the reference bounce of the
    noisy direction, up to whole turns; after any bounce it is strictly below
    2*pi.
   */
  lemma BallUpdateDirection(s: PongState, cos: real -> real, sin: real -> real, d: Draws)
    ensures SameAngle(BallUpdate(s, cos, sin, d).ballVel,
                      Bounced(NoisyVel(s, d), !InUnit(NoisyX(s, cos, d)), !InUnit(NoisyY(s, sin, d))))
    ensures !InUnit(NoisyX(s, cos, d)) || !InUnit(NoisyY(s, sin, d)) ==> BallUpdate(s, cos, sin, d).ballVel < TwoPi
  {
    var vel := NoisyVel(s, d);
    var cx, cy := !InUnit(NoisyX(s, cos, d)), !InUnit(NoisyY(s, sin, d));
    var vel' := if cx then FlipX(vel) else vel;
    if cx {
      FlipXSame(vel);
    } else {
      SameAngleRefl(vel);
    }
    var afterX := if cx then Pi - vel else vel;
    assert SameAngle(vel', afterX);
    if cy {
      FlipYSame(vel');
      SameAngleMirror(vel', afterX, 0.0);
      assert 0.0 - vel' == -vel';
      assert 0.0 - afterX == -afterX;
      SameAngleTrans(FlipY(vel'), -vel', -afterX);
    } else if cx {
      assert vel' == FlipX(vel);
      assert vel' < TwoPi;
    }
  }

  /**
    The x-before-y order of `update_ball_pos` does not matter under exact
    arithmetic: when both walls are crossed, handling y first gives the same
    direction.
   */
  lemma BallUpdateOrderIrrelevant(s: PongState, cos: real -> real, sin: real -> real, d: Draws)
    requires !InUnit(NoisyX(s, cos, d)) && !InUnit(NoisyY(s, sin, d))
    ensures BallUpdate(s, cos, sin, d).ballVel == FlipX(FlipY(NoisyVel(s, d)))
  {
    FlipsCommute(NoisyVel(s, d));
  }

  /** The new position of a paddle: half the way to the ball, plus noise, clamped. */
  function Track(paddle: real, ballY: real, noise: real): real {
    Clamp(paddle + 0.5 * (ballY - paddle) + noise)
  }

  /**
    `update_paddle_pos`: both paddles track the (already updated) ball y
    with damping and their own draw, and stay in [-1, 1]. Nothing but the
    two paddle positions changes.
   */
  function PaddleUpdate(s: PongState, d: Draws): (r: PongState)
    ensures r == s.(proPaddleY := r.proPaddleY, antPaddleY := r.antPaddleY)
    ensures InUnit(r.proPaddleY) && InUnit(r.antPaddleY)
  {
    var pro := Track(s.proPaddleY, s.ballY, d.pro);
    var ant := Track(s.antPaddleY, s.ballY, d.ant);
    s.(proPaddleY := pro, antPaddleY := ant)
  }

  /** Without noise, a paddle within range halves its distance to a ball within range. */
  lemma TrackHalvesGap(paddle: real, ballY: real)
    requires InUnit(paddle) && InUnit(ballY)
    ensures Track(paddle, ballY, 0.0) - ballY == (paddle - ballY) / 2.0
  {
  }

  /**
    Without paddle noise, a paddle within range moves half-way to a ball
    within range; `Step` applies this to the ball's position after its move.
   */
  lemma PaddleUpdateHalvesGap(b: PongState, d: Draws)
    requires d.pro == 0.0 && d.ant == 0.0
    requires InUnit(b.proPaddleY) && InUnit(b.antPaddleY) && InUnit(b.ballY)
    ensures var r := PaddleUpdate(b, d);
            && r.proPaddleY - b.ballY == (b.proPaddleY - b.ballY) / 2.0
            && r.antPaddleY - b.ballY == (b.antPaddleY - b.ballY) / 2.0
  {
    TrackHalvesGap(b.proPaddleY, b.ballY);
    TrackHalvesGap(b.antPaddleY, b.ballY);
  }

  /**
    `simulate_timestep`: ball, then paddles (tracking the new ball y), then
    the counter. The ball ends where `update_ball_pos` puts it. Speed, noise deviations, scores and colours are unchanged;
    the direction lies in [0, 2*pi] and both paddles in [-1, 1].
   */
  function Step(s: PongState, cos: real -> real, sin: real -> real, d: Draws): (r: PongState)
    ensures r.timestep == s.timestep + 1
    ensures r.ballSpeed == s.ballSpeed && r.ballNoise == s.ballNoise && r.paddleNoise == s.paddleNoise
    ensures r.proScore == s.proScore && r.antScore == s.antScore
    ensures r.ballColor == s.ballColor && r.backgroundColor == s.backgroundColor
    ensures r.proColor == s.proColor && r.antColor == s.antColor
    ensures 0.0 <= r.ballVel <= TwoPi
    ensures InUnit(r.proPaddleY) && InUnit(r.antPaddleY)
    ensures -3.0 <= NoisyX(s, cos, d) <= 3.0 ==> InUnit(r.ballX)
    ensures -3.0 <= NoisyY(s, sin, d) <= 3.0 ==> InUnit(r.ballY)
    ensures var b := BallUpdate(s, cos, sin, d);
            r.ballX == b.ballX && r.ballY == b.ballY && r.ballVel == b.ballVel
  {
    var ball := BallUpdate(s, cos, sin, d);
    var moved := PaddleUpdate(ball, d);
    assert moved.ballX == ball.ballX && moved.ballY == ball.ballY && moved.ballVel == ball.ballVel;
    assert -3.0 <= NoisyX(s, cos, d) <= 3.0 ==> InUnit(ball.ballX);
    assert -3.0 <= NoisyY(s, sin, d) <= 3.0 ==> InUnit(ball.ballY);
    moved.(timestep := moved.timestep + 1)
  }

  /**
    The paddles track the ball's y after this step's fold, not before it:
    each becomes the clamped, damped move toward the new ball y plus its
    scaled draw.
   */
  lemma StepTracksNewBall(s: PongState, cos: real -> real, sin: real -> real, d: Draws)
    ensures var r := Step(s, cos, sin, d);
            && r.proPaddleY == Track(s.proPaddleY, r.ballY, d.pro)
            && r.antPaddleY == Track(s.antPaddleY, r.ballY, d.ant)
  {
    var ball := BallUpdate(s, cos, sin, d);
    var moved := PaddleUpdate(ball, d);
    assert Step(s, cos, sin, d) == moved.(timestep := moved.timestep + 1);
    assert moved.ballY == ball.ballY;
    assert ball.proPaddleY == s.proPaddleY && ball.antPaddleY == s.antPaddleY;
  }

  /** The range invariant a state keeps between steps. */
  predicate Valid(s: PongState) {
    && InUnit(s.ballX) && InUnit(s.ballY)
    && 0.0 <= s.ballVel <= TwoPi
    && InUnit(s.proPaddleY) && InUnit(s.antPaddleY)
  }

  /** The ball's motion plus noise moves it by at most 2 along each axis. */
  predicate SmallMove(s: PongState, cos: real -> real, sin: real -> real, d: Draws) {
    && -2.0 <= cos(s.ballVel) * s.ballSpeed + d.ballX <= 2.0
    && -2.0 <= sin(s.ballVel) * s.ballSpeed + d.ballY <= 2.0
  }

  /**
    A step keeps the state valid whenever the ball's motion plus noise moves
    it by at most 2 along each axis.
   */
  lemma StepPreservesValid(s: PongState, cos: real -> real, sin: real -> real, d: Draws)
    requires Valid(s)
    requires SmallMove(s, cos, sin, d)
    ensures Valid(Step(s, cos, sin, d))
  {
    var dx, dy := cos(s.ballVel) * s.ballSpeed + d.ballX, sin(s.ballVel) * s.ballSpeed + d.ballY;
    assert NoisyX(s, cos, d) == s.ballX + dx;
    assert NoisyY(s, sin, d) == s.ballY + dy;
  }

  /**
    Noise is unbounded, so the invariant can break: from the default state a
    single large x-draw leaves the ball outside [-1, 1] after the fold.
   */
  lemma BallCanEscape(cos: real -> real, sin: real -> real, z: Draws)
    requires -1.0 <= cos(Pi / 7.0) <= 1.0
    requires z.ballX == 140.0
    ensures !InUnit(Step(DefaultState(), cos, sin, ScaleDraws(DefaultState(), z)).ballX)
  {
    var d := ScaleDraws(DefaultState(), z);
    assert d.ballX == 7.0;
    var x := NoisyX(DefaultState(), cos, d);
    assert 6.8 <= x <= 7.2;
    assert ModPos(x) == x - 4.0;
  }

  /**
    Without noise the ball moves in a straight line at its direction while it
    stays inside the box, and its direction (including exactly 2*pi) is kept.
   */
  lemma NoiseFreeStraightLine(s: PongState, cos: real -> real, sin: real -> real, d: Draws)
    requires d.ballX == 0.0 && d.ballY == 0.0 && d.ballVel == 0.0
    requires 0.0 <= s.ballVel <= TwoPi
    requires InUnit(s.ballX + cos(s.ballVel) * s.ballSpeed)
    requires InUnit(s.ballY + sin(s.ballVel) * s.ballSpeed)
    ensures Step(s, cos, sin, d).ballX == s.ballX + cos(s.ballVel) * s.ballSpeed
    ensures Step(s, cos, sin, d).ballY == s.ballY + sin(s.ballVel) * s.ballSpeed
    ensures Step(s, cos, sin, d).ballVel == s.ballVel
  {
    var dx, dy := cos(s.ballVel) * s.ballSpeed, sin(s.ballVel) * s.ballSpeed;
    assert NoisyX(s, cos, d) == s.ballX + dx + 0.0;
    assert NoisyY(s, sin, d) == s.ballY + dy + 0.0;
    assert NoisyVel(s, d) == s.ballVel;
  }

  /** Without noise, a ball moving at angle 0 that crosses the right wall comes back at angle pi. */
  lemma NoiseFreeBounceX(s: PongState, cos: real -> real, sin: real -> real, d: Draws)
    requires d.ballX == 0.0 && d.ballY == 0.0 && d.ballVel == 0.0 && s.ballVel == 0.0
    requires 1.0 < s.ballX + cos(0.0) * s.ballSpeed <= 3.0
    requires InUnit(s.ballY + sin(0.0) * s.ballSpeed)
    ensures Step(s, cos, sin, d).ballVel == Pi
    ensures Step(s, cos, sin, d).ballX == 2.0 - (s.ballX + cos(0.0) * s.ballSpeed)
  {
  }

  /** Without noise, a ball moving at angle pi/2 that crosses the top wall comes back at 3*pi/2. */
  lemma NoiseFreeBounceY(s: PongState, cos: real -> real, sin: real -> real, d: Draws)
    requires d.ballX == 0.0 && d.ballY == 0.0 && d.ballVel == 0.0 && s.ballVel == HalfPi
    requires InUnit(s.ballX + cos(HalfPi) * s.ballSpeed)
    requires 1.0 < s.ballY + sin(HalfPi) * s.ballSpeed <= 3.0
    ensures Step(s, cos, sin, d).ballVel == 3.0 * HalfPi
    ensures Step(s, cos, sin, d).ballY == 2.0 - (s.ballY + sin(HalfPi) * s.ballSpeed)
  {
    FlipYExamples();
  }
}

=== FILE: trajectory.dfy ===
/**
  The frame-collection loop of `save_trajectory` (datasets/pong.py), with
  the file write left out: frame 0 renders the initial state, and each
  further frame renders the state after one more step.

  The loop is stated for any per-step function; `PongStep` is the one the
  source uses, `simulate_timestep`, given the trigonometric functions.
 */
module Trajectory {
  import opened State
  import opened Stepper
  import opened Angles
  import opened Raster

  /** One timestep: the state and the raw standard-normal draws it consumes give the next state. */
  type StepFn = (PongState, Draws) -> PongState

  /** `simulate_timestep`, with `cos` and `sin` fixed. */
  function PongStep(cos: real -> real, sin: real -> real): StepFn {
    (st: PongState, z: Draws) => Step(st, cos, sin, ScaleDraws(st, z))
  }

  /** The state after `t` steps; step `k + 1` consumes the draws `noise(k)`. */
  function Run(s: PongState, step: StepFn, noise: nat -> Draws, t: nat): PongState {
    if t == 0 then s else step(Run(s, step, noise, t - 1), noise(t - 1))
  }

  /**
    A run of `simulate_timestep` counts its steps and never changes the speed,
    the noise deviations, the scores or the colours; after at least one step
    the angle lies in [0, 2*pi] and both paddles lie in [-1, 1], whatever the
    starting state.
   */
  lemma {:induction false} RunKeepsSettings(s: PongState, cos: real -> real, sin: real -> real, noise: nat -> Draws, t: nat)
    ensures var r := Run(s, PongStep(cos, sin), noise, t);
            && r.timestep == s.timestep + t
            && r.ballSpeed == s.ballSpeed && r.ballNoise == s.ballNoise && r.paddleNoise == s.paddleNoise
            && r.proScore == s.proScore && r.antScore == s.antScore
            && r.ballColor == s.ballColor && r.backgroundColor == s.backgroundColor
            && r.proColor == s.proColor && r.antColor == s.antColor
    ensures 0 < t ==> var r := Run(s, PongStep(cos, sin), noise, t);
                      0.0 <= r.ballVel <= TwoPi && InUnit(r.proPaddleY) && InUnit(r.antPaddleY)
  {
    if t > 0 {
      RunKeepsSettings(s, cos, sin, noise, t - 1);
    }
  }

  /** Each of the first `n` steps of the run moves the ball by at most 2 per axis. */
  predicate SmallMovesUpTo(s: PongState, cos: real -> real, sin: real -> real, noise: nat -> Draws, n: nat) {
    n == 0 ||
    (SmallMovesUpTo(s, cos, sin, noise, n - 1) &&
     SmallMove(Run(s, PongStep(cos, sin), noise, n - 1), cos, sin, ScaleDraws(Run(s, PongStep(cos, sin), noise, n - 1), noise(n - 1))))
  }

  /**
    With every step's displacement bounded by 2 per axis, a valid state stays
    valid along the whole run.
   */
  lemma {:induction false} RunStaysValid(s: PongState, cos: real -> real, sin: real -> real, noise: nat -> Draws, n: nat)
    requires Valid(s)
    requires SmallMovesUpTo(s, cos, sin, noise, n)
    ensures Valid(Run(s, PongStep(cos, sin), noise, n))
  {
    if n > 0 {
      RunStaysValid(s, cos, sin, noise, n - 1);
      var prev := Run(s, PongStep(cos, sin), noise, n - 1);
      StepPreservesValid(prev, cos, sin, ScaleDraws(prev, noise(n - 1)));
    }
  }

  /** Every state of the run before step `n` satisfies the assertions of `draw_frame`. */
  predicate DrawableUpTo(s: PongState, step: StepFn, noise: nat -> Draws, n: nat) {
    n == 0 || (DrawableUpTo(s, step, noise, n - 1) && Drawable(Run(s, step, noise, n - 1)))
  }

  /** `DrawableUpTo` is the bounded quantifier it abbreviates, in both directions. */
  lemma {:induction false} DrawableUpToAll(s: PongState, step: StepFn, noise: nat -> Draws, n: nat)
    ensures DrawableUpTo(s, step, noise, n) ==> forall k: nat | k < n :: Drawable(Run(s, step, noise, k))
    ensures (forall k: nat | k < n :: Drawable(Run(s, step, noise, k))) ==> DrawableUpTo(s, step, noise, n)
  {
    if n > 0 {
      DrawableUpToAll(s, step, noise, n - 1);
    }
  }

  /** Under the bound of `RunStaysValid`, all `n + 1` states of the run can be drawn. */
  lemma {:induction false} SmallMovesDraw(s: PongState, cos: real -> real, sin: real -> real, noise: nat -> Draws, n: nat)
    requires Valid(s)
    requires SmallMovesUpTo(s, cos, sin, noise, n)
    ensures DrawableUpTo(s, PongStep(cos, sin), noise, n + 1)
  {
    if n > 0 {
      SmallMovesDraw(s, cos, sin, noise, n - 1);
    }
    RunStaysValid(s, cos, sin, noise, n);
  }

  /** The frames of the first `n` states of the run. */
  function RenderRun(s: PongState, step: StepFn, noise: nat -> Draws, n: nat): (frames: seq<Frame>)
    requires DrawableUpTo(s, step, noise, n)
    ensures |frames| == n
  {
    if n == 0 then [] else RenderRun(s, step, noise, n - 1) + [DrawFrame(Run(s, step, noise, n - 1))]
  }

  /** Frame `k` of the rendered run is the frame of the state after `k` steps. */
  lemma {:induction false} RenderRunFrame(s: PongState, step: StepFn, noise: nat -> Draws, n: nat, k: nat)
    requires DrawableUpTo(s, step, noise, n)
    requires k < n
    ensures Drawable(Run(s, step, noise, k))
    ensures RenderRun(s, step, noise, n)[k] == DrawFrame(Run(s, step, noise, k))
  {
    if k < n - 1 {
      RenderRunFrame(s, step, noise, n - 1, k);
    }
  }

  /** Why collecting frames stops early. */
  datatype TrajectoryError =
    | NegativeDimension                      // `np.empty` of a negative length
    | CoordinateOutOfRange(frameIndex: nat)  // the assertion of `get_abs_pos` while drawing that frame
    | IndexOutOfBounds                       // storing frame 0 into an empty array

  datatype Outcome =
    | Frames(frames: seq<Frame>, final: PongState)
    | Failed(error: TrajectoryError)

  /** The loop of `save_trajectory`, once frame 0 is known to be drawable and wanted. */
  method CollectFrames(s: PongState, step: StepFn, noise: nat -> Draws, timesteps: nat)
    returns (r: Outcome)
    requires 1 <= timesteps && Drawable(s)
    ensures r.Frames? <==> DrawableUpTo(s, step, noise, timesteps)
    ensures r.Frames? ==> r.frames == RenderRun(s, step, noise, timesteps) && r.final == Run(s, step, noise, timesteps - 1)
    ensures r.Failed? ==> r.error.CoordinateOutOfRange? && 0 < r.error.frameIndex < timesteps
    ensures r.Failed? ==> DrawableUpTo(s, step, noise, r.error.frameIndex) && !Drawable(Run(s, step, noise, r.error.frameIndex))
  {
    var state := s;
    var frames := [DrawFrame(state)];
    assert Run(s, step, noise, 0) == s;
    assert frames == RenderRun(s, step, noise, 1);
    var t := 1;
    while t < timesteps
      invariant 1 <= t <= timesteps
      invariant state == Run(s, step, noise, t - 1)
      invariant DrawableUpTo(s, step, noise, t)
      invariant frames == RenderRun(s, step, noise, t)
    {
      state := step(state, noise(t - 1));
      assert state == Run(s, step, noise, t);
      if !Drawable(state) {
        DrawableUpToAll(s, step, noise, timesteps);
        return Failed(CoordinateOutOfRange(t));
      }
      frames := frames + [DrawFrame(state)];
      t := t + 1;
    }
    assert t == timesteps;
    return Frames(frames, state);
  }

  /**
    `save_trajectory` without the file write. On success there is one frame
    per timestep, frame `t` renders the state after `t` steps, and the state
    ends `timesteps - 1` steps on. It fails exactly when `timesteps` is not
    positive or some state along the way has a coordinate outside [-1, 1];
    in the latter case it reports the first such frame.
   */
  method SaveTrajectory(s: PongState, step: StepFn, noise: nat -> Draws, timesteps: int)
    returns (r: Outcome)
    ensures timesteps < 0 ==> r == Failed(NegativeDimension)
    ensures 0 <= timesteps && !Drawable(s) ==> r == Failed(CoordinateOutOfRange(0))
    ensures timesteps == 0 && Drawable(s) ==> r == Failed(IndexOutOfBounds)
    ensures r.Failed? ==> (r.error.NegativeDimension? <==> timesteps < 0)
    ensures r.Failed? ==> (r.error.IndexOutOfBounds? <==> timesteps == 0 && Drawable(s))
    ensures r.Frames? <==> 1 <= timesteps && DrawableUpTo(s, step, noise, timesteps)
    ensures r.Frames? ==> r.frames == RenderRun(s, step, noise, timesteps)
    ensures r.Frames? ==> r.final == Run(s, step, noise, timesteps - 1)
    ensures r.Failed? && r.error.CoordinateOutOfRange? ==>
              && (r.error.frameIndex == 0 || r.error.frameIndex < timesteps)
              && DrawableUpTo(s, step, noise, r.error.frameIndex)
              && !Drawable(Run(s, step, noise, r.error.frameIndex))
  {
    if timesteps < 0 {
      return Failed(NegativeDimension);
    }
    if !Drawable(s) {
      assert Run(s, step, noise, 0) == s;
      DrawableUpToAll(s, step, noise, timesteps);
      return Failed(CoordinateOutOfRange(0));
    }
    if timesteps == 0 {
      return Failed(IndexOutOfBounds);
    }
    r := CollectFrames(s, step, noise, timesteps);
  }

  /**
    A trajectory of `simulate_timestep` from a valid state whose steps each
    move the ball by at most 2 per axis is saved in full: frame `k` is the
    frame of the state after `k` steps (`RenderRunFrame`).
   */
  method SavePongTrajectory(s: PongState, cos: real -> real, sin: real -> real, noise: nat -> Draws, timesteps: nat)
    returns (r: Outcome)
    requires Valid(s) && 1 <= timesteps
    requires SmallMovesUpTo(s, cos, sin, noise, timesteps - 1)
    ensures r.Frames?
    ensures |r.frames| == timesteps
    ensures DrawableUpTo(s, PongStep(cos, sin), noise, timesteps)
    ensures r.frames == RenderRun(s, PongStep(cos, sin), noise, timesteps)
    ensures r.final == Run(s, PongStep(cos, sin), noise, timesteps - 1)
  {
    var step := PongStep(cos, sin);
    SmallMovesDraw(s, cos, sin, noise, timesteps - 1);
    assert DrawableUpTo(s, step, noise, timesteps);
    r := SaveTrajectory(s, step, noise, timesteps);
  }
}
